=== FILE: README.md ===
# rackhost_api core, modelled in Dafny

This project models the core of `rackhost_api`, a Rust client for the
Rackhost customer console. The console has no published API, so the client
logs in through the HTML login form. It then reads DNS zones and records out
of HTML grids, creates and updates records through form POSTs, and reads the
availability and prices of domain names out of the search page.

The model covers the parts of the client that are logic rather than I/O:

- the two-state client handle and the login transition (`Auth`);
- the zone listing (`Zone`);
- DNS records (`Record`): the closed TTL set, the record types and their
  wire strings, the identity slot and its stripping, grid-row parsing, and
  the form, URL and success-marker logic of create and update;
- domain search (`Domains`): the eleven-slot pricing builder, `build`, the
  classification of hits and the assembly of each entry;
- the earlier single-file client `src/rackhost_client.rs` (`LegacyClient`).

Some conventions run through the whole model:

- **Panics are results.** An `expect`, `unwrap`, `assert_eq!` or
  `unreachable!` that fires is modelled as `Err(Panic(message))`. The call
  aborts, with no partial result.
- **Errors keep their kind.** `bail!` and `ok_or` give `Failure(message)`.
  A transport failure passed on with `?` is `Transport`. A body that is not
  JSON is `MalformedJson`.
- **The network is an input.** Each operation receives what the transport
  returned: the outcome of the CSRF fetch, the status or body of the POST,
  and the outcome of each page fetch. A page fetch gives either the rows,
  links or hits the selectors matched on the page, or the transport error,
  which the listing passes on unchanged as `?` does.
- **Sent POSTs are visible.** An operation that POSTs returns an `Exchange`:
  the POST it sent, if it got that far, and its result.
- **Loops are methods.** Each extraction loop (zones, records, domain hits)
  is a method with a loop. It is proved equal to `Wrappers.Traverse`, the
  single definition of "one result per element, in document order, and the
  first failure aborts the whole call".

Modules: `Wrappers` (Option, Result, the error kinds, `Traverse`), `Text`
(`u32`, splitting on `/` and `.`, decimal printing and `u32` parsing),
`Html` (cells, links, elements), `Http` (URLs, forms, POSTs, the transport
handle), `Auth`, `Zone`, `Record`, `Domains`, `LegacyClient`.

## Model

| member | source | states |
|---|---|---|
| `Text.LastSegment` | src/zone.rs:24 | The piece `split('/').last()` yields is a suffix with no '/'. A '/' comes right before it unless it is the whole string. It is the whole string when there is no '/'. |
| `Text.LastSegmentAfterSlash` | src/record.rs:139-142 | A path ending in '/' followed by a segment without '/' yields exactly that segment as its last piece. |
| `Text.FirstLabel` | src/record.rs:163-171 | The piece `split('.').next()` yields is a prefix of the host name with no '.'. A '.' follows it unless it is the whole name. It is the whole name when there is no '.'. It always exists, so the `expect` never fires. |
| `Text.ParseDecimal` | src/record.rs:25-29 | The decimal text of a `u32`, as `Display` prints it, parses back as a `u32` to the same number. |
| `Auth.Authenticate` | src/auth.rs:18-46 | Only callable on a `NotAuthed` handle. The token is fetched first: if that fails, nothing is posted and its error is returned. Otherwise the three-field login form is posted. The call succeeds iff the status is 3xx, and the new handle is `Authed` over the same HTTP client. Any other status gives `Failure("Login failed")`. A transport error passes through. |
| `Auth.LoginFormFields` | src/auth.rs:30-34 | The login form is exactly three pairs, in this order: `rackhost-csrf`, `LoginForm[username]`, `LoginForm[password]`. They carry the token and the credentials unchanged. |
| `Auth.LoginForm` | src/auth.rs:30-34 | The login form has three pairs and begins with the token under `rackhost-csrf`. `LoginFormFields` gives the full order and contents. |
| `Zone.ZoneOfAnchor` | src/zone.rs:22-26 | A link gives a zone iff it has an `href` and a text. The id is the last '/'-segment of the `href` and the name is the text. A missing `href` panics before a missing text is checked. |
| `Zone.ZoneIdShape` | src/zone.rs:24 | A zone id never holds '/'. It equals the `href` when that has no '/' and is empty when the `href` ends in '/'. Otherwise the `href` is some prefix, then '/', then the id. |
| `Zone.GetDnsZones` | src/zone.rs:12-30 | Requires an `Authed` handle. A failed page fetch is returned unchanged. Otherwise the call yields one zone per matched link, in document order, and `Ok([])` for no links. It succeeds iff every link has an `href` and a text; the first link without them aborts the call. |
| `Zone.ZonesOfAnchors` | src/zone.rs:22-27 | A listing succeeds iff every link has an `href` and a text. It then holds one zone per link, in order, each with id the last '/'-segment of the `href` and name the text. |
| `Record.TtlTryNew` | src/record.rs:31-53 | `TTL::try_new` succeeds exactly for the 13 durations from 300 to 604800 seconds and keeps the value unchanged. |
| `Record.IsValidTtl` | src/record.rs:31-47 | `is_valid_ttl` holds exactly for the values in the listed set of 13 durations. |
| `Record.TtlString` | src/record.rs:49-53 | The `Display` text of a TTL is a non-empty run of decimal digits. |
| `Record.TtlStringReadsBack` | src/record.rs:49-53 | The text of a TTL parses back as a `u32` to the same number. |
| `Record.RecordTypeName` | src/record.rs:55-64 | The `Display` string of a record type is one of "A", "AAAA", "CNAME" and "TXT". `RecordTypeRoundTrip` shows that it parses back to that type. |
| `Record.IdString` | src/record.rs:25-29 | The `Display` text of an id is a non-empty run of decimal digits, so it holds no '/'. |
| `Record.IdStringReadsBack` | src/record.rs:25-29 | The text of an id parses back as a `u32` to the same id. |
| `Record.TtlValuesAreThirteen` | src/record.rs:31-47 | The closed TTL set has 13 values in strictly increasing order. |
| `Record.ParseRecordType` | src/record.rs:55-64 | `from_str` accepts exactly "A", "AAAA", "CNAME" and "TXT". What it accepts is the variant's `Display` string. |
| `Record.RecordTypeRoundTrip` | src/record.rs:55-64 | Parsing the `Display` string of any record type gives back that type. |
| `Record.StripId` | src/record.rs:75-85 | The `HasId` to `NoId` conversion keeps the host name, type, target and TTL. It replaces only the id. |
| `Record.RecordOfRow` | src/record.rs:98-149 | A row is read iff cells 1-4 have text, the type label parses, the TTL text parses as a `u32` in the listed set, and cell 5 has a link whose `href`'s last '/'-segment parses as a `u32`. Any failure is a panic. On success the record's fields read back from cells 1-4 and the id is that parsed segment. |
| `Record.RowRoundTrip` | src/record.rs:98-149 | The grid row that shows a record (name, type, target, TTL, edit link ending in the id) parses back to that record. |
| `Record.RecordOfRowReads` | src/record.rs:98-149 | A row whose cells 1-4 read as a record's name, type, target and TTL, and whose cell-5 link ends in the record's id, is read as exactly that record. |
| `Record.GetDnsRecords` | src/record.rs:88-153 | Requires an `Authed` handle. A failed page fetch is returned unchanged. Otherwise the call yields one record per grid row, in document order, each as `RecordOfRow` reads it. The first malformed row aborts the whole call with a panic. |
| `Record.CreateUrl` | src/record.rs:197-198 | The create endpoint is `dnsRecord/createOther`. Its query is `dnsZoneId=` followed by the zone id, so the id can be read back from the query. |
| `Record.UpdateUrl` | src/record.rs:206 | The update URL has no query. Its last path segment is the `Display` text of the record id. |
| `Record.UpdateUrlNamesRecord` | src/record.rs:197-206 | The update URL's last path segment parses back to the record's id. The update URL never equals the create URL. |
| `Record.RecordForm` | src/record.rs:160-176 | The form has five pairs. The first is the token under `rackhost-csrf` and the fourth is the target under `DnsRecordForm[target]`. `RecordFormFields` gives the other fields. |
| `Record.RecordFormFields` | src/record.rs:160-176 | The form is exactly five pairs in a fixed order. The name field is the host name's leading label, the type field parses back to the record type, the target is unchanged, and the TTL field parses back to the TTL. |
| `Record.SubmitRecord` | src/record.rs:155-194 | If the token fetch fails, nothing is posted and that error is returned. Otherwise the record's form is posted to the given URL with the `X-Requested-With: XMLHttpRequest` header. A transport error of the POST passes through. The call succeeds iff the answer is JSON whose `message` fragment holds a `div.alert-success`. A fragment without one gives `Failure("Failed to update record")`, whatever the status. A missing `message` panics and a non-JSON body is `MalformedJson`. |
| `Record.CreateDnsRecord` | src/record.rs:196-203 | Requires an `Authed` handle. Once the token is fetched, it posts the record's form, with the XMLHttpRequest header, to the create endpoint of the zone; if the fetch fails, nothing is posted. It succeeds iff the submission does. The `expect` turns every failure into a panic, so it never returns an error. A panic inside the submission is returned unchanged. A failure that is not already a panic becomes `Panic("Failed to create record")`. |
| `Record.UpdateDnsRecord` | src/record.rs:205-212 | Requires an `Authed` handle. Once the token is fetched, it posts the form of the id-stripped record, with the XMLHttpRequest header, to the update endpoint of its id; if the fetch fails, nothing is posted. It succeeds iff the submission does. Every failure is a panic. A panic inside the submission is returned unchanged, and a failure that is not already a panic becomes `Panic("Failed to update record")`. |
| `Record.UpdateSendsCreateForm` | src/record.rs:205-208 | Updating a record sends the same form as creating its id-stripped copy and succeeds on the same answers. Only the URL differs. |
| `Domains.BuildFromSlots` | src/domains.rs:77-92 | Building succeeds iff the slots for years 1-9 are all set. Registration and ten-year prices pass through as options, and the result holds every slot unchanged. Otherwise it gives `Failure("Field missing")`. |
| `Domains.DomainPricingBuilder.constructor` | src/domains.rs:55-57 | A new builder has all eleven slots empty. |
| `Domains.DomainPricingBuilder.SetByQuantity` | src/domains.rs:59-75 | A term q of at most 10 sets slot q (0 is registration, k the k-year price) to the price in forint. It overwrites any earlier value and leaves the other ten slots unchanged. A larger term panics and changes nothing. |
| `Domains.DomainPricingBuilder.Build` | src/domains.rs:77-92 | The builder's field-by-field `build` equals `BuildFromSlots` of its eleven slots. |
| `Domains.ApplyOptions` | src/domains.rs:174-177 | The option loop succeeds iff every option is in HUF with a term of at most 10. Otherwise it panics at the assertion or at `unreachable!`. |
| `Domains.ApplyOptionsFirstBad` | src/domains.rs:174-177 | The first bad option decides the panic, since the options run in order. A currency other than HUF fails the `assert_eq!` before its term is looked at. A HUF option with a term above 10 reaches the `unreachable!()` of `set_by_quantity`. |
| `Domains.ApplyOptionsLastWins` | src/domains.rs:174-177 | After the loop, slot k holds the price of the last option for term k. With no option for term k, the slot keeps its earlier value. |
| `Domains.FillPricing` | src/domains.rs:174-177 | Runs the options in order over the builder. It fails iff `ApplyOptions` from the builder's starting slots fails, and with the same panic. Otherwise the builder ends with exactly the slots `ApplyOptions` computes. |
| `Domains.PricingOf` | src/domains.rs:171-179 | A panic in the option loop is the hit's result, unchanged. Otherwise the pricing builds iff years 1-9 are set, and then it holds exactly the slots the loop left. |
| `Domains.PricingOfComplete` | src/domains.rs:173-179 | A hit's pricing builds iff all options are in HUF with terms of at most 10 and every year 1-9 is quoted. Exactly the quoted terms are set, each to the price of the last option for that term. A bad option makes it fail with a panic. With valid options, a missing year makes it fail with `Failure("Field missing")`. |
| `Domains.DomainInfo.New` | src/domains.rs:96-101 | A new entry has the given url and state and no pricing. |
| `Domains.DomainInfo.WithPrice` | src/domains.rs:102-104 | Sets the pricing and keeps url and state. |
| `Domains.Classify` | src/domains.rs:140-147 | `domain-taken` gives `Unavailable` and wins over `domain-free`. `domain-free` alone gives `Available`, and neither class gives `RegisteredOnRackhost`. `Unknown` is never produced. |
| `Domains.HitInfo` | src/domains.rs:137-180 | An entry carries the hit's `data-domain` and its classified state. It has pricing iff it is not `RegisteredOnRackhost`. Owned hits never fail and skip the options. Other hits succeed iff their pricing builds, and carry that pricing. Otherwise they fail with the pricing's error. |
| `Domains.SearchDomain` | src/domains.rs:135-183 | Works on a handle in either state. A failed page fetch is returned unchanged. Otherwise the call yields one entry per hit, in document order, with url equal to `data-domain`. It is never `Unknown`, and it has pricing iff it is not owned. The first failing hit aborts the whole search. |
| `LegacyClient.Validate` | src/rackhost_client.rs:78-86 | `IsTTL::validate` returns the value unchanged for exactly the values `is_valid_ttl` accepts, and `Failure("Invalid TTL value")` otherwise. |
| `LegacyClient.FromStr` | src/rackhost_client.rs:68-74 | Accepts exactly the labels the later `RecordType` accepts, and maps each to the variant of the same name. |
| `LegacyClient.RecordOfRow` | src/rackhost_client.rs:170-221 | A row is read iff cells 1-4 have text, the type label is a variant name, the TTL text parses as a `u32` that `Validate` accepts, and cell 5 has a link with an `href`. Any failure is a panic. On success the fields read back from cells 1-4, and the id is the text of the `href`'s last '/'-segment, not parsed. |
| `LegacyClient.RecordOfRowAgrees` | src/rackhost_client.rs:204-214 | The later client reads a row iff this one does and the id text is a `u32`. Both then read the same name, type, target, TTL and id. |
| `LegacyClient.GetDnsRecords` | src/rackhost_client.rs:159-225 | Requires an `Authed` handle. A failed page fetch is returned unchanged. Otherwise the call yields one record per row, in order, each as `LegacyClient.RecordOfRow` reads it, so the id text is kept as a string. The first malformed row aborts the call with a panic. |
| `LegacyClient.GetDnsZones` | src/rackhost_client.rs:138-157 | A failed page fetch is returned unchanged. Otherwise the call is `Traverse(Zone.ZoneOfAnchor, ..)` over the links: one zone per link, in order, with id the last '/'-segment of `href` and name the link text. It succeeds iff the fetch did and every link has both. A bad link on a fetched page panics. |
| `LegacyClient.Authenticate` | src/rackhost_client.rs:101-128 | The token is fetched first: if that fails, nothing is posted and its error is returned. Otherwise the three-field login form is posted. A transport error of the POST passes through. The call succeeds iff the status is 3xx, and the `Authed` handle keeps the same HTTP client. Any other status gives `Failure("Login failed")`. |

## Left out

- HTTP transport (reqwest GET/POST, cookie store, redirect policy, connection pool): its answers are parameters. The transport handle is an opaque object, so "the same client" means the same reference.
- The rate limiter and client builder (src/builder.rs): they sleep before each request and wire up the client, with no state to model.
- HTML selector matching and JSON decoding (scraper, serde_json): the model starts from what the selectors matched.
  - Rows, cells, links and elements are abstract values.
  - A price option is its decoded value, currency and term.
  - The panics of the decoding loop in src/domains.rs:158-169 (missing `data-json`, bad JSON, non-integer fields) are not modelled.
- Money parsing (rusty_money): a price is the integer the option carries, in forint.
- `get_csrf_token` (src/csrf.rs): treated as an input, the token or the failure of fetching it.
- URLs: a URL is its path and query on https://www.rackhost.hu. The GET requests of `Zone.GetDnsZones`, `Record.GetDnsRecords`, `Domains.SearchDomain`, `LegacyClient.GetDnsZones` and `LegacyClient.GetDnsRecords` are not modelled as values: their URLs (with the `domainList` query of the search) and the failure of building those URLs are left out. Only the outcome of each fetch is modelled.
- `Record.CreateDnsRecord`, `Record.UpdateDnsRecord`: `Url::join` resolution and percent-encoding of the zone id are not modelled; the URL is plain concatenation.
- Move semantics: `authenticate` consumes its `NotAuthed` handle in Rust. Here the old handle value still exists after the call; only the `requires` on the state is modelled.
- `Domains.DomainInfo.WithPrice`: `with_price` updates an owned struct in place. It is modelled as returning the updated value, which is equivalent because nothing else can refer to that struct.
- The `DomainPricing` value returned by `build` consumes the builder in Rust; here the builder object remains.
- src/lib.rs (the earliest snapshot), the unimplemented `search_domain` of src/rackhost_client.rs, and `RackhostClient::new`/`Default`: an unimplemented body, a duplicate, or construction wiring.
- src/base.rs, src/config.rs, src/endpoints.rs: constants and plain data, with no behaviour.

=== FILE: auth.dfy ===
/** The two-state client handle and the login transition between the states. */
module Auth {
  import opened Wrappers
  import opened Http

  /** The sealed type-state marker: a handle is either logged in or not, and
      nothing else. */
  datatype AuthState = Authed | NotAuthed

  /** A client handle: its state marker and the HTTP client it wraps. */
  datatype RackhostClient = RackhostClient(state: AuthState, client: Transport)

  const LoginUrl := Url("/site/login", None)

  /** The login form: the anti-forgery token, then the credentials. */
  function LoginForm(csrf: string, username: string, password: string): (form: seq<FormField>)
    ensures |form| == 3 && form[0] == ("rackhost-csrf", csrf)
  {
    [("rackhost-csrf", csrf), ("LoginForm[username]", username), ("LoginForm[password]", password)]
  }

  /** Logs a `NotAuthed` handle in. `csrf` is the outcome of fetching the
      token from the login page; `response` is the status the transport
      returned for the login POST, or its failure. The POST is only sent
      once the token is known, and only a 3xx answer counts as success, in
      which case the new `Authed` handle wraps the very same HTTP client. */
  function Authenticate(handle: RackhostClient, username: string, password: string,
                        csrf: Result<string>, response: Result<int>): (x: Exchange<RackhostClient>)
    requires handle.state == NotAuthed
    ensures x.result.Ok? <==> csrf.Ok? && response.Ok? && IsRedirection(response.value)
    ensures x.result.Ok? ==> x.result.value == RackhostClient(Authed, handle.client)
    ensures csrf.Err? ==> x.sent == None && x.result == Err(csrf.error)
    ensures csrf.Ok? ==> x.sent == Some(Post(LoginUrl, [], LoginForm(csrf.value, username, password)))
    ensures csrf.Ok? && response.Err? ==> x.result == Err(response.error)
    ensures csrf.Ok? && response.Ok? && !IsRedirection(response.value) ==> x.result == Err(Failure("Login failed"))
  {
    match csrf
    case Err(e) => Exchange(None, Err(e))
    case Ok(token) =>
      var sent := Some(Post(LoginUrl, [], LoginForm(token, username, password)));
      match response
      case Err(e) => Exchange(sent, Err(e))
      case Ok(status) =>
        if !IsRedirection(status) then Exchange(sent, Err(Failure("Login failed")))
        else Exchange(sent, Ok(RackhostClient(Authed, handle.client)))
  }

  /** The login form has exactly three fields, in a fixed order, and carries
      the token and the credentials unchanged. */
  lemma LoginFormFields(csrf: string, username: string, password: string)
    ensures var form := LoginForm(csrf, username, password);
      && |form| == 3
      && form[0].0 == "rackhost-csrf" && form[1].0 == "LoginForm[username]" && form[2].0 == "LoginForm[password]"
      && form[0].1 == csrf && form[1].1 == username && form[2].1 == password
  {
  }
}

=== FILE: domains.dfy ===
/** Domain search: how each hit of the result page is classified and how its
    price list becomes a pricing schedule. */
module Domains {
  import opened Wrappers
  import Auth

  datatype DomainState = Available | Unavailable | RegisteredOnRackhost | Unknown

  /** The only currency the client supports: the Hungarian forint. */
  datatype Currency = HUF

  datatype Money = Money(amount: int, currency: Currency)

  /** The price of every term of one to nine years, plus an optional one-off
      registration fee and an optional ten-year price. */
  datatype DomainPricing = DomainPricing(
    registrationPrice: Option<Money>,
    priceOneYear: Money,
    priceTwoYears: Money,
    priceThreeYears: Money,
    priceFourYears: Money,
    priceFiveYears: Money,
    priceSixYears: Money,
    priceSevenYears: Money,
    priceEightYears: Money,
    priceNineYears: Money,
    priceTenYears: Option<Money>)

  /** A pricing as eleven slots indexed by term: slot 0 is the registration
      fee, slot k the k-year price. */
  function PricingSlots(p: DomainPricing): seq<Option<Money>> {
    [p.registrationPrice, Some(p.priceOneYear), Some(p.priceTwoYears), Some(p.priceThreeYears),
     Some(p.priceFourYears), Some(p.priceFiveYears), Some(p.priceSixYears), Some(p.priceSevenYears),
     Some(p.priceEightYears), Some(p.priceNineYears), p.priceTenYears]
  }

  function EmptySlots(): (s: seq<Option<Money>>)
    ensures |s| == 11 && forall k :: 0 <= k < 11 ==> s[k].None?
  {
    [None, None, None, None, None, None, None, None, None, None, None]
  }

  /** Building a pricing out of eleven slots: it succeeds exactly when the
      slots of years one to nine are all set, and then keeps every slot as
      it is. */
  function BuildFromSlots(slots: seq<Option<Money>>): (r: Result<DomainPricing>)
    requires |slots| == 11
    ensures r.Ok? <==> forall k :: 1 <= k <= 9 ==> slots[k].Some?
    ensures r.Ok? ==> PricingSlots(r.value) == slots
    ensures r.Err? ==> r.error == Failure("Field missing")
  {
    if forall k :: 1 <= k <= 9 ==> slots[k].Some? then
      Ok(DomainPricing(slots[0], slots[1].value, slots[2].value, slots[3].value, slots[4].value,
                       slots[5].value, slots[6].value, slots[7].value, slots[8].value,
                       slots[9].value, slots[10]))
    else Err(Failure("Field missing"))
  }

  /** The builder a search fills in option by option. */
  class DomainPricingBuilder {
    var registrationPrice: Option<Money>
    var priceOneYear: Option<Money>
    var priceTwoYears: Option<Money>
    var priceThreeYears: Option<Money>
    var priceFourYears: Option<Money>
    var priceFiveYears: Option<Money>
    var priceSixYears: Option<Money>
    var priceSevenYears: Option<Money>
    var priceEightYears: Option<Money>
    var priceNineYears: Option<Money>
    var priceTenYears: Option<Money>

    /** The eleven fields as slots indexed by term. */
    function Slots(): (s: seq<Option<Money>>)
      reads this
      ensures |s| == 11
    {
      [registrationPrice, priceOneYear, priceTwoYears, priceThreeYears, priceFourYears,
       priceFiveYears, priceSixYears, priceSevenYears, priceEightYears, priceNineYears, priceTenYears]
    }

    /** `DomainPricingBuilder::new`: every slot empty. */
    constructor ()
      ensures Slots() == EmptySlots()
    {
      registrationPrice, priceOneYear, priceTwoYears, priceThreeYears := None, None, None, None;
      priceFourYears, priceFiveYears, priceSixYears, priceSevenYears := None, None, None, None;
      priceEightYears, priceNineYears, priceTenYears := None, None, None;
    }

    /** `set_by_quantity`: a term of 0 to 10 sets that one slot to the price in
      forint, overwriting what it held; any other term is unreachable code
      and panics. */
    method SetByQuantity(price: int, quantity: nat) returns (r: Result<()>)
      modifies this
      ensures quantity <= 10 ==> r == Ok(()) && Slots() == old(Slots())[quantity := Some(Money(price, HUF))]
      ensures quantity > 10 ==> r == Err(Panic("internal error: entered unreachable code")) && Slots() == old(Slots())
    {
      var money := Some(Money(price, HUF));
      match quantity {
      case 0 => registrationPrice := money;
      case 1 => priceOneYear := money;
      case 2 => priceTwoYears := money;
      case 3 => priceThreeYears := money;
      case 4 => priceFourYears := money;
      case 5 => priceFiveYears := money;
      case 6 => priceSixYears := money;
      case 7 => priceSevenYears := money;
      case 8 => priceEightYears := money;
      case 9 => priceNineYears := money;
      case 10 => priceTenYears := money;
      case _ => return Err(Panic("internal error: entered unreachable code"));
      }
      r := Ok(());
    }

    /** `build`: the pricing the builder's slots make, field by field. */
    function Build(): (r: Result<DomainPricing>)
      reads this
      ensures r == BuildFromSlots(Slots())
    {
      if priceOneYear.None? || priceTwoYears.None? || priceThreeYears.None? || priceFourYears.None?
         || priceFiveYears.None? || priceSixYears.None? || priceSevenYears.None?
         || priceEightYears.None? || priceNineYears.None?
      then Err(Failure("Field missing"))
      else
        Ok(DomainPricing(registrationPrice, priceOneYear.value, priceTwoYears.value,
                         priceThreeYears.value, priceFourYears.value, priceFiveYears.value,
                         priceSixYears.value, priceSevenYears.value, priceEightYears.value,
                         priceNineYears.value, priceTenYears))
    }
  }

  /** One price option of a hit, as decoded from its `data-json`: the price,
      its currency and the term in years (0 for the registration fee). */
  datatype PriceOption = PriceOption(value: int, currency: string, quantity: nat)

  /** The search's option loop: each option, in order, must be in forint
      (else the assertion panics) and is stored in the slot of its term
      (a term above 10 panics). */
  function ApplyOptions(slots: seq<Option<Money>>, options: seq<PriceOption>): (r: Result<seq<Option<Money>>>)
    requires |slots| == 11
    ensures r.Ok? <==> forall i :: 0 <= i < |options| ==> options[i].currency == "HUF" && options[i].quantity <= 10
    ensures r.Ok? ==> |r.value| == 11
    ensures r.Err? ==> r.error.Panic?
    decreases |options|
  {
    if options == [] then Ok(slots)
    else
      var o := options[0];
      if o.currency != "HUF" then Err(Panic("assertion `left == right` failed"))
      else if o.quantity > 10 then Err(Panic("internal error: entered unreachable code"))
      else ApplyOptions(slots[o.quantity := Some(Money(o.value, HUF))], options[1..])
  }

  /** The first bad option decides the panic: the currency assertion is
      checked before the term, so a foreign currency fails the assertion
      whatever its term, and a forint option with a term above 10 reaches
      the unreachable arm of `set_by_quantity`. */
  lemma {:induction false} ApplyOptionsFirstBad(slots: seq<Option<Money>>, options: seq<PriceOption>, i: nat)
    requires |slots| == 11 && i < |options|
    requires forall j :: 0 <= j < i ==> options[j].currency == "HUF" && options[j].quantity <= 10
    requires !(options[i].currency == "HUF" && options[i].quantity <= 10)
    ensures ApplyOptions(slots, options) == Err(Panic(
      if options[i].currency != "HUF" then "assertion `left == right` failed"
      else "internal error: entered unreachable code"))
    decreases i
  {
    if i > 0 {
      var o := options[0];
      assert o.currency == "HUF" && o.quantity <= 10;
      var rest := options[1..];
      assert rest[i - 1] == options[i];
      assert forall j :: 0 <= j < i - 1 ==> rest[j] == options[j + 1];
      ApplyOptionsFirstBad(slots[o.quantity := Some(Money(o.value, HUF))], rest, i - 1);
    }
  }

  /** Some option quotes term `k`. */
  predicate Quoted(options: seq<PriceOption>, k: nat) {
    exists i :: 0 <= i < |options| && options[i].quantity == k
  }

  /** Last writer wins: after the options are applied, slot k holds the price
      of the last option for term k, or what it held before when no option
      is for term k. */
  lemma {:induction false} ApplyOptionsLastWins(slots: seq<Option<Money>>, options: seq<PriceOption>, k: nat)
    requires |slots| == 11 && k < 11 && ApplyOptions(slots, options).Ok?
    ensures !Quoted(options, k) ==> ApplyOptions(slots, options).value[k] == slots[k]
    ensures forall i :: 0 <= i < |options| && options[i].quantity == k
                        && (forall j :: i < j < |options| ==> options[j].quantity != k)
                        ==> ApplyOptions(slots, options).value[k] == Some(Money(options[i].value, HUF))
    decreases |options|
  {
    if options != [] {
      var o := options[0];
      var rest := options[1..];
      var slots' := slots[o.quantity := Some(Money(o.value, HUF))];
      assert ApplyOptions(slots, options) == ApplyOptions(slots', rest);
      ApplyOptionsLastWins(slots', rest, k);
      if !Quoted(options, k) {
        assert o.quantity != k;
        assert !Quoted(rest, k) by {
          forall i | 0 <= i < |rest| ensures rest[i].quantity != k {
            assert rest[i] == options[i + 1];
          }
        }
      }
      forall i | 0 <= i < |options| && options[i].quantity == k
                 && (forall j :: i < j < |options| ==> options[j].quantity != k)
        ensures ApplyOptions(slots, options).value[k] == Some(Money(options[i].value, HUF))
      {
        if i == 0 {
          assert !Quoted(rest, k) by {
            forall i' | 0 <= i' < |rest| ensures rest[i'].quantity != k {
              assert rest[i'] == options[i' + 1];
            }
          }
        } else {
          assert rest[i - 1] == options[i];
          assert forall j :: i - 1 < j < |rest| ==> rest[j].quantity != k by {
            forall j | i - 1 < j < |rest| ensures rest[j].quantity != k {
              assert rest[j] == options[j + 1];
            }
          }
        }
      }
    }
  }

  /** The pricing of a hit that is not owned: its options applied to an empty
      builder, then built. */
  function PricingOf(options: seq<PriceOption>): (r: Result<DomainPricing>)
    ensures var applied := ApplyOptions(EmptySlots(), options);
      && (applied.Err? ==> r == Err(applied.error))
      && (applied.Ok? ==> (r.Ok? <==> forall k :: 1 <= k <= 9 ==> applied.value[k].Some?))
      && (r.Ok? ==> applied.Ok? && PricingSlots(r.value) == applied.value)
  {
    match ApplyOptions(EmptySlots(), options)
    case Err(e) => Err(e)
    case Ok(slots) => BuildFromSlots(slots)
  }

  /** A hit gets a pricing exactly when every option is in forint with a term
      of at most ten years and every term of one to nine years is quoted;
      each slot of the pricing holds the last price quoted for its term. */
  lemma PricingOfComplete(options: seq<PriceOption>)
    ensures PricingOf(options).Ok? <==>
      (forall i :: 0 <= i < |options| ==> options[i].currency == "HUF" && options[i].quantity <= 10)
      && forall k :: 1 <= k <= 9 ==> Quoted(options, k)
    ensures PricingOf(options).Ok? ==> forall k :: 0 <= k < 11 ==>
      (PricingSlots(PricingOf(options).value)[k].Some? <==> Quoted(options, k))
    ensures PricingOf(options).Ok? ==> forall i ::
      (0 <= i < |options| && forall j :: i < j < |options| ==> options[j].quantity != options[i].quantity) ==>
      PricingSlots(PricingOf(options).value)[options[i].quantity] == Some(Money(options[i].value, HUF))
    ensures !(forall i :: 0 <= i < |options| ==> options[i].currency == "HUF" && options[i].quantity <= 10) ==>
      PricingOf(options).Err? && PricingOf(options).error.Panic?
    ensures (forall i :: 0 <= i < |options| ==> options[i].currency == "HUF" && options[i].quantity <= 10) ==>
      PricingOf(options).Err? ==> PricingOf(options).error == Failure("Field missing")
  {
    var applied := ApplyOptions(EmptySlots(), options);
    if applied.Ok? {
      forall k | 0 <= k < 11
        ensures applied.value[k].Some? <==> Quoted(options, k)
      {
        ApplyOptionsLastWins(EmptySlots(), options, k);
        if Quoted(options, k) {
          var i := LastQuote(options, k);
        }
      }
      forall i | 0 <= i < |options| && forall j :: i < j < |options| ==> options[j].quantity != options[i].quantity
        ensures applied.value[options[i].quantity] == Some(Money(options[i].value, HUF))
      {
        ApplyOptionsLastWins(EmptySlots(), options, options[i].quantity);
      }
    }
  }

  /** The index of the last option for term k. */
  lemma LastQuote(options: seq<PriceOption>, k: nat) returns (i: nat)
    requires Quoted(options, k)
    ensures i < |options| && options[i].quantity == k
    ensures forall j :: i < j < |options| ==> options[j].quantity != k
  {
    i := |options| - 1;
    while options[i].quantity != k
      invariant 0 <= i < |options|
      invariant forall j :: i < j < |options| ==> options[j].quantity != k
      decreases i
    {
      i := i - 1;
    }
  }

  /** One entry of the search result. */
  datatype DomainInfo = DomainInfo(url: string, state: DomainState, pricing: Option<DomainPricing>)
  {
    /** `DomainInfo::new`: a name and its state, without pricing. */
    static function New(url: string, state: DomainState): (d: DomainInfo)
      ensures d.url == url && d.state == state && d.pricing == None
    {
      DomainInfo(url, state, None)
    }

    /** `with_price`: sets the pricing and keeps the name and state. */
    function WithPrice(p: DomainPricing): (d: DomainInfo)
      ensures d.url == url && d.state == state && d.pricing == Some(p)
    {
      this.(pricing := Some(p))
    }
  }

  /** A `div.domain-hit[data-domain]` of the result page: the domain it shows,
      its classes and the price options inside it. */
  datatype DomainHit = DomainHit(dataDomain: string, classes: set<string>, options: seq<PriceOption>)

  /** The state a hit's classes mean: "domain-taken" first, then
      "domain-free", and a hit with neither belongs to the account. */
  function Classify(classes: set<string>): (s: DomainState)
    ensures s != Unknown
    ensures s == Unavailable <==> "domain-taken" in classes
    ensures s == Available <==> "domain-taken" !in classes && "domain-free" in classes
    ensures s == RegisteredOnRackhost <==> "domain-taken" !in classes && "domain-free" !in classes
  {
    if "domain-taken" in classes then Unavailable
    else if "domain-free" in classes then Available
    else RegisteredOnRackhost
  }

  /** The entry one hit yields: a domain of the account carries no pricing
      and never fails; any other hit carries the pricing its options build,
      or fails as they do. */
  function HitInfo(hit: DomainHit): (r: Result<DomainInfo>)
    ensures r.Ok? ==> r.value.url == hit.dataDomain && r.value.state == Classify(hit.classes)
    ensures r.Ok? ==> (r.value.pricing.None? <==> r.value.state == RegisteredOnRackhost)
    ensures Classify(hit.classes) == RegisteredOnRackhost ==> r.Ok?
    ensures Classify(hit.classes) != RegisteredOnRackhost ==>
      (r.Ok? <==> PricingOf(hit.options).Ok?) && (r.Ok? ==> r.value.pricing == Some(PricingOf(hit.options).value))
    ensures Classify(hit.classes) != RegisteredOnRackhost && r.Err? ==> r == Err(PricingOf(hit.options).error)
  {
    var state := Classify(hit.classes);
    if state == RegisteredOnRackhost then Ok(DomainInfo.New(hit.dataDomain, state))
    else
      match PricingOf(hit.options)
      case Err(e) => Err(e)
      case Ok(p) => Ok(DomainInfo.New(hit.dataDomain, state).WithPrice(p))
  }

  /** The option loop of `search_domain`: stores each option's price in the
      builder, in order, and stops at the first option that panics. */
  method FillPricing(pricing: DomainPricingBuilder, options: seq<PriceOption>) returns (r: Result<()>)
    modifies pricing
    ensures r.Ok? ==> ApplyOptions(old(pricing.Slots()), options) == Ok(pricing.Slots())
    ensures r.Err? ==> ApplyOptions(old(pricing.Slots()), options) == Err(r.error)
  {
    for j := 0 to |options|
      invariant ApplyOptions(pricing.Slots(), options[j..]) == ApplyOptions(old(pricing.Slots()), options)
    {
      var option := options[j];
      assert options[j..][1..] == options[j + 1..];
      if option.currency != "HUF" {
        return Err(Panic("assertion `left == right` failed"));
      }
      var outcome := pricing.SetByQuantity(option.value, option.quantity);
      if outcome.Err? {
        return outcome;
      }
    }
    assert options[|options|..] == [];
    r := Ok(());
  }

  /** `search_domain`: `page` is what fetching the search page gave, the
      domain hits on it or the transport error, which is passed on. The hits
      are walked in document order; each is classified and, unless owned,
      fills a fresh builder from its options. The first hit that fails aborts
      the search, so no partial list is returned. */
  method SearchDomain(handle: Auth.RackhostClient, page: Result<seq<DomainHit>>) returns (r: Result<seq<DomainInfo>>)
    ensures page.Err? ==> r == Err(page.error)
    ensures page.Ok? ==> r == Traverse(HitInfo, page.value)
    ensures r.Ok? ==> page.Ok? && |r.value| == |page.value|
    ensures r.Ok? ==> forall i :: 0 <= i < |page.value| ==>
      && r.value[i].url == page.value[i].dataDomain
      && r.value[i].state != Unknown
      && (r.value[i].pricing.None? <==> r.value[i].state == RegisteredOnRackhost)
  {
    if page.Err? {
      return Err(page.error);
    }
    var hits := page.value;
    var domains: seq<DomainInfo> := [];
    for n := 0 to |hits|
      invariant Traverse(HitInfo, hits[..n]) == Ok(domains)
    {
      var element := hits[n];
      var domainState;
      if "domain-taken" in element.classes {
        domainState := Unavailable;
      } else if "domain-free" in element.classes {
        domainState := Available;
      } else {
        domainState := RegisteredOnRackhost;
      }

      if domainState == RegisteredOnRackhost {
        TraverseStep(HitInfo, hits, n, domains);
        domains := domains + [DomainInfo.New(element.dataDomain, domainState)];
        continue;
      }

      var domainInfo := DomainInfo.New(element.dataDomain, domainState);
      var pricing := new DomainPricingBuilder();
      var filled := FillPricing(pricing, element.options);
      if filled.Err? {
        TraverseFirstError(HitInfo, hits, n);
        return Err(filled.error);
      }
      var built := pricing.Build();
      if built.Err? {
        TraverseFirstError(HitInfo, hits, n);
        return Err(built.error);
      }
      domainInfo := domainInfo.WithPrice(built.value);
      TraverseStep(HitInfo, hits, n, domains);
      domains := domains + [domainInfo];
    }
    assert hits[..|hits|] == hits;
    r := Ok(domains);
    assert r == Traverse(HitInfo, hits);
  }
}

=== FILE: html.dfy ===
/** What the client reads out of a parsed HTML page, once the selectors have
    matched: rows of table cells, links, and elements with their classes. */
module Html {
  import opened Wrappers

  /** An `<a>` element: its `href` attribute and its first text node. */
  datatype Anchor = Anchor(href: Option<string>, firstText: Option<string>)

  /** A `<td>`: its first text node and the first `<a>` inside it. */
  datatype Cell = Cell(firstText: Option<string>, firstLink: Option<Anchor>)

  /** A `<tr>` and its cells in document order. */
  datatype Row = Row(cells: seq<Cell>)

  /** An element of an HTML fragment: its tag name and its class list. */
  datatype Element = Element(tag: string, classes: set<string>)

  /** `td:nth-child(n)` followed by `.text().next()`. */
  function CellText(row: Row, n: nat): Option<string>
  {
    if 1 <= n <= |row.cells| then row.cells[n - 1].firstText else None
  }

  /** `td:nth-child(n) a`: the first link of the n-th cell. */
  function CellLink(row: Row, n: nat): Option<Anchor>
  {
    if 1 <= n <= |row.cells| then row.cells[n - 1].firstLink else None
  }
}

=== FILE: http.dfy ===
/** The requests the client sends, as values, and the transport handle. */
module Http {
  import opened Wrappers

  /** One `key=value` pair of a url-encoded form. */
  type FormField = (string, string)

  /** A URL on https://www.rackhost.hu: its path and its query string. */
  datatype Url = Url(path: string, query: Option<string>)

  /** One request header, name and value. */
  type Header = (string, string)

  /** A form POST the client sent: where, with which extra headers, and the form. */
  datatype Post = Post(url: Url, headers: seq<Header>, form: seq<FormField>)

  /** The POST a call sent, if it got that far, and what the call returned. */
  datatype Exchange<T> = Exchange(sent: Option<Post>, result: Result<T>)

  /** `StatusCode::is_redirection`: a 3xx status. */
  predicate IsRedirection(status: int) {
    300 <= status < 400
  }

  /** The underlying HTTP client with its cookie store. Handles that share
      it share the remote session. */
  class Transport {
  }
}

=== FILE: legacy_client.dfy ===
/** The earlier single-file client: its own TTL rule, record type and record
    listing, in which the record id stays text. Its zone listing and login are
    the same code as the later split-out modules. */
module LegacyClient {
  import opened Wrappers
  import opened Text
  import opened Html
  import opened Http
  import Auth
  import Zone
  import Record

  /** `IsTTL::validate`: the listed durations pass unchanged, anything else
      is refused. The list is the one the later client keeps. */
  function Validate(item: u32): (r: Result<u32>)
    ensures r.Ok? <==> Record.IsValidTtl(item)
    ensures r.Ok? ==> r.value == item
    ensures r.Err? ==> r.error == Failure("Invalid TTL value")
  {
    match item
    case 300 | 600 | 900 | 1800 | 3600 | 7200 | 14400 | 21600 | 43200 | 86400 | 172800
      | 432000 | 604800 => Ok(item)
    case _ => Err(Failure("Invalid TTL value"))
  }

  /** `Refined<IsTTL>`. */
  type Ttl = v: u32 | Validate(v).Ok? witness 300

  datatype RecordType = A | AAAA | CNAME | TXT

  /** `RecordType::from_str`: the variant names, and nothing else. */
  function FromStr(s: string): (r: Option<RecordType>)
    ensures r.Some? <==> Record.ParseRecordType(s).Some?
    ensures r.Some? ==> Record.RecordTypeName(Record.ParseRecordType(s).value) == Name(r.value)
  {
    match s
    case "A" => Some(A)
    case "AAAA" => Some(AAAA)
    case "CNAME" => Some(CNAME)
    case "TXT" => Some(TXT)
    case _ => None
  }

  /** The variant's name. */
  function Name(t: RecordType): string {
    match t
    case A => "A"
    case AAAA => "AAAA"
    case CNAME => "CNAME"
    case TXT => "TXT"
  }

  /** A record as this client lists it: the id is the text of the edit
      link's last segment. */
  datatype DnsRecord = DnsRecord(hostName: string, recordType: RecordType, value: string, ttl: Ttl, id: string)

  /** One row of the record grid; every missing or malformed part aborts the
      listing. The id is not parsed. */
  function RecordOfRow(row: Row): (r: Result<DnsRecord>)
    ensures r.Err? ==> r.error.Panic?
    ensures r.Ok? <==>
      && CellText(row, 1).Some?
      && CellText(row, 2).Some? && FromStr(CellText(row, 2).value).Some?
      && CellText(row, 3).Some?
      && CellText(row, 4).Some? && ParseU32(CellText(row, 4).value).Some?
      && Validate(ParseU32(CellText(row, 4).value).value).Ok?
      && CellLink(row, 5).Some? && CellLink(row, 5).value.href.Some?
    ensures r.Ok? ==>
      && CellText(row, 1) == Some(r.value.hostName)
      && CellText(row, 2).Some? && FromStr(CellText(row, 2).value) == Some(r.value.recordType)
      && CellText(row, 3) == Some(r.value.value)
      && CellText(row, 4).Some? && ParseU32(CellText(row, 4).value) == Some(r.value.ttl as u32)
      && CellLink(row, 5).Some? && CellLink(row, 5).value.href.Some?
      && r.value.id == LastSegment(CellLink(row, 5).value.href.value)
    ensures (CellText(row, 4).Some? && ParseU32(CellText(row, 4).value).Some?
             && Validate(ParseU32(CellText(row, 4).value).value).Err?) ==> r.Err?
  {
    var name := CellText(row, 1);
    var kind := CellText(row, 2);
    var value := CellText(row, 3);
    var ttlText := CellText(row, 4);
    var link := CellLink(row, 5);
    if name.None? then Err(Panic("No name found"))
    else if kind.None? then Err(Panic("No record type found"))
    else if value.None? then Err(Panic("No value found"))
    else if ttlText.None? then Err(Panic("No ttl found"))
    else if ParseU32(ttlText.value).None? then Err(Panic("Failed to parse ttl"))
    else if link.None? then Err(Panic("No id found"))
    else if link.value.href.None? then Err(Panic("No href found"))
    else
      var id := LastSegment(link.value.href.value);
      var recordType := FromStr(kind.value);
      var ttl := ParseU32(ttlText.value).value;
      if recordType.None? then Err(Panic("Invalid record type"))
      else if Validate(ttl).Err? then Err(Panic("Invalid TTL"))
      else Ok(DnsRecord(name.value, recordType.value, value.value, ttl, id))
  }

  /** The later client reads a row exactly when this one does and the id text
      is a `u32`, and then both read the same name, type, target and TTL,
      and the same id. */
  lemma RecordOfRowAgrees(row: Row)
    ensures Record.RecordOfRow(row).Ok? <==>
      RecordOfRow(row).Ok? && ParseU32(RecordOfRow(row).value.id).Some?
    ensures Record.RecordOfRow(row).Ok? ==>
      var current, listed := Record.RecordOfRow(row).value, RecordOfRow(row).value;
      && current.hostName == listed.hostName
      && Record.RecordTypeName(current.recordType) == Name(listed.recordType)
      && current.target == listed.value
      && current.ttl as u32 == listed.ttl as u32
      && ParseU32(listed.id) == Some(current.id.id)
  {
  }

  /** `get_dns_records` of this client: a fetch error is passed on,
      otherwise one record per row, in order; the first malformed row aborts
      the call. */
  method GetDnsRecords(handle: Auth.RackhostClient, zone: Zone.DnsZone, page: Result<seq<Row>>)
    returns (r: Result<seq<DnsRecord>>)
    requires handle.state == Auth.Authed
    ensures page.Err? ==> r == Err(page.error)
    ensures page.Ok? ==> r == Traverse(RecordOfRow, page.value)
    ensures r.Ok? ==> page.Ok? && |r.value| == |page.value|
    ensures r.Ok? ==> forall i :: 0 <= i < |page.value| ==> RecordOfRow(page.value[i]) == Ok(r.value[i])
    ensures page.Ok? && r.Err? ==> r.error.Panic?
  {
    if page.Err? {
      return Err(page.error);
    }
    var rows := page.value;
    var dnsRecords: seq<DnsRecord> := [];
    for i := 0 to |rows|
      invariant Traverse(RecordOfRow, rows[..i]) == Ok(dnsRecords)
    {
      var record := RecordOfRow(rows[i]);
      if record.Err? {
        TraverseFirstError(RecordOfRow, rows, i);
        return Err(record.error);
      }
      TraverseStep(RecordOfRow, rows, i, dnsRecords);
      dnsRecords := dnsRecords + [record.value];
    }
    assert rows[..|rows|] == rows;
    r := Ok(dnsRecords);
    assert r == Traverse(RecordOfRow, rows);
  }

  /** `get_dns_zones` of this client, the same fetch and loop as the later
      one: a fetch error is passed on, otherwise the zone of each link, in
      order. */
  method GetDnsZones(handle: Auth.RackhostClient, page: Result<seq<Anchor>>) returns (r: Result<seq<Zone.DnsZone>>)
    requires handle.state == Auth.Authed
    ensures page.Err? ==> r == Err(page.error)
    ensures r.Ok? <==> (page.Ok? &&
      forall i :: 0 <= i < |page.value| ==> page.value[i].href.Some? && page.value[i].firstText.Some?)
    ensures page.Ok? ==> r == Traverse(Zone.ZoneOfAnchor, page.value)
    ensures page.Ok? && r.Err? ==> r.error.Panic?
    ensures r.Ok? ==> |r.value| == |page.value|
    ensures r.Ok? ==> forall i :: 0 <= i < |page.value| ==>
      r.value[i] == Zone.DnsZone(LastSegment(page.value[i].href.value), page.value[i].firstText.value)
  {
    r := Zone.GetDnsZones(handle, page);
  }

  /** `authenticate` of this client, the same transition as the later one:
      success exactly on a 3xx answer, and the `Authed` handle keeps the
      HTTP client. */
  function Authenticate(handle: Auth.RackhostClient, username: string, password: string,
                        csrf: Result<string>, response: Result<int>): (x: Exchange<Auth.RackhostClient>)
    requires handle.state == Auth.NotAuthed
    ensures x.result.Ok? <==> csrf.Ok? && response.Ok? && IsRedirection(response.value)
    ensures x.result.Ok? ==> x.result.value == Auth.RackhostClient(Auth.Authed, handle.client)
    ensures csrf.Err? ==> x.sent == None && x.result == Err(csrf.error)
    ensures csrf.Ok? ==> x.sent == Some(Post(Auth.LoginUrl, [], Auth.LoginForm(csrf.value, username, password)))
    ensures csrf.Ok? && response.Err? ==> x.result == Err(response.error)
    ensures csrf.Ok? && response.Ok? && !IsRedirection(response.value) ==> x.result == Err(Failure("Login failed"))
  {
    Auth.Authenticate(handle, username, password, csrf, response)
  }
}

=== FILE: record.dfy ===
/** DNS records of a zone: their validated fields, how a grid row becomes a
    record, and how a record is submitted for creation or update. */
module Record {
  import opened Wrappers
  import opened Text
  import opened Html
  import opened Http
  import Auth
  import Zone

  /** The TTLs the console accepts, in seconds. */
  predicate IsValidTtl(value: u32)
    ensures IsValidTtl(value) <==> value in TtlValues
  {
    value == 300 || value == 600 || value == 900 || value == 1800 || value == 3600 || value == 7200
    || value == 14400 || value == 21600 || value == 43200 || value == 86400 || value == 172800
    || value == 432000 || value == 604800
  }

  /** The same durations as a list: five minutes up to one week. */
  const TtlValues: seq<u32> :=
    [300, 600, 900, 1800, 3600, 7200, 14400, 21600, 43200, 86400, 172800, 432000, 604800]

  type Ttl = v: u32 | IsValidTtl(v) witness 300

  /** `TTL::try_new`: succeeds exactly for the listed durations and keeps
      the number as it is. */
  function TtlTryNew(value: u32): (r: Option<Ttl>)
    ensures r.Some? <==> value in TtlValues
    ensures r.Some? ==> r.value == value
  {
    if IsValidTtl(value) then Some(value) else None
  }

  /** The list holds thirteen durations in increasing order. */
  lemma TtlValuesAreThirteen()
    ensures |TtlValues| == 13
    ensures forall i, j :: 0 <= i < j < |TtlValues| ==> TtlValues[i] < TtlValues[j]
  {
  }

  /** `Display` of a TTL: the number of seconds in decimal. */
  function TtlString(t: Ttl): (s: string)
    ensures |s| >= 1 && AllDigits(s)
  {
    Decimal(t as nat)
  }

  /** The text of a TTL reads back as the same number. */
  lemma TtlStringReadsBack(t: Ttl)
    ensures ParseU32(TtlString(t)) == Some(t as u32)
  {
    ParseDecimal(t);
  }

  datatype RecordType = A | Aaaa | Cname | Txt

  /** The wire string of a record type, as `Display` prints it. */
  function RecordTypeName(t: RecordType): (s: string)
    ensures s in {"A", "AAAA", "CNAME", "TXT"}
  {
    match t
    case A => "A"
    case Aaaa => "AAAA"
    case Cname => "CNAME"
    case Txt => "TXT"
  }

  /** `RecordType::from_str`: the four wire strings, and nothing else. */
  function ParseRecordType(s: string): (r: Option<RecordType>)
    ensures r.Some? <==> s in {"A", "AAAA", "CNAME", "TXT"}
    ensures r.Some? ==> RecordTypeName(r.value) == s
  {
    if s == "A" then Some(A)
    else if s == "AAAA" then Some(Aaaa)
    else if s == "CNAME" then Some(Cname)
    else if s == "TXT" then Some(Txt)
    else None
  }

  lemma RecordTypeRoundTrip(t: RecordType)
    ensures ParseRecordType(RecordTypeName(t)) == Some(t)
  {
  }

  /** The identity slot of a record: the remote id, or none yet. */
  datatype HasId = HasId(id: u32)
  datatype NoId = NoId

  /** `Display` of an id: the number in decimal. */
  function IdString(h: HasId): (s: string)
    ensures |s| >= 1 && AllDigits(s)
    ensures '/' !in s
  {
    Decimal(h.id as nat)
  }

  /** The text of an id reads back as the same number. */
  lemma IdStringReadsBack(h: HasId)
    ensures ParseU32(IdString(h)) == Some(h.id)
  {
    ParseDecimal(h.id);
  }

  datatype DnsRecord<I> = DnsRecord(hostName: string, recordType: RecordType, target: string, ttl: Ttl, id: I)

  /** `From<DnsRecord<HasId>> for DnsRecord<NoId>`: forgets the id only. */
  function StripId(record: DnsRecord<HasId>): (r: DnsRecord<NoId>)
    ensures r.hostName == record.hostName && r.recordType == record.recordType
    ensures r.target == record.target && r.ttl == record.ttl
  {
    DnsRecord(record.hostName, record.recordType, record.target, record.ttl, NoId)
  }

  // ---------------------------------------------------------------------------
  // Reading the record grid

  /** One row of the record grid: name, type, target, TTL, and an edit link
      whose last path segment is the id. Every missing or malformed part
      aborts the listing, in the order the code looks at them. */
  function RecordOfRow(row: Row): (r: Result<DnsRecord<HasId>>)
    ensures r.Err? ==> r.error.Panic?
    ensures r.Ok? <==>
      && CellText(row, 1).Some?
      && CellText(row, 2).Some? && ParseRecordType(CellText(row, 2).value).Some?
      && CellText(row, 3).Some?
      && CellText(row, 4).Some? && ParseU32(CellText(row, 4).value).Some?
      && IsValidTtl(ParseU32(CellText(row, 4).value).value)
      && CellLink(row, 5).Some? && CellLink(row, 5).value.href.Some?
      && ParseU32(LastSegment(CellLink(row, 5).value.href.value)).Some?
    ensures r.Ok? ==>
      && CellText(row, 1) == Some(r.value.hostName)
      && CellText(row, 2).Some? && ParseRecordType(CellText(row, 2).value) == Some(r.value.recordType)
      && CellText(row, 3) == Some(r.value.target)
      && CellText(row, 4).Some? && ParseU32(CellText(row, 4).value) == Some(r.value.ttl as u32)
      && CellLink(row, 5).Some? && CellLink(row, 5).value.href.Some?
      && ParseU32(LastSegment(CellLink(row, 5).value.href.value)) == Some(r.value.id.id)
    ensures CellText(row, 2).Some? && ParseRecordType(CellText(row, 2).value).None? ==> r.Err?
    ensures CellText(row, 4).Some? && ParseU32(CellText(row, 4).value).None? ==> r.Err?
    ensures (CellText(row, 4).Some? && ParseU32(CellText(row, 4).value).Some?
             && !IsValidTtl(ParseU32(CellText(row, 4).value).value)) ==> r.Err?
    ensures (CellLink(row, 5).Some? && CellLink(row, 5).value.href.Some?
             && ParseU32(LastSegment(CellLink(row, 5).value.href.value)).None?) ==> r.Err?
  {
    var name := CellText(row, 1);
    var kind := CellText(row, 2);
    var value := CellText(row, 3);
    var ttlText := CellText(row, 4);
    var link := CellLink(row, 5);
    if name.None? then Err(Panic("No name found"))
    else if kind.None? then Err(Panic("No record type found"))
    else if value.None? then Err(Panic("No value found"))
    else if ttlText.None? then Err(Panic("No ttl found"))
    else if ParseU32(ttlText.value).None? then Err(Panic("Failed to parse ttl"))
    else if link.None? then Err(Panic("No id found"))
    else if link.value.href.None? then Err(Panic("No href found"))
    else
      var id := ParseU32(LastSegment(link.value.href.value));
      var recordType := ParseRecordType(kind.value);
      var ttl := TtlTryNew(ParseU32(ttlText.value).value);
      if id.None? then Err(Panic("Failed to parse id"))
      else if recordType.None? then Err(Panic("Invalid record type"))
      else if ttl.None? then Err(Panic("Invalid TTL"))
      else Ok(DnsRecord(name.value, recordType.value, value.value, ttl.value, HasId(id.value)))
  }

  /** The grid row the console shows for a record; `editPath` is the path of
      its edit link up to the final '/'. */
  function RecordRow(record: DnsRecord<HasId>, editPath: string): Row {
    Row([
      Cell(Some(record.hostName), None),
      Cell(Some(RecordTypeName(record.recordType)), None),
      Cell(Some(record.target), None),
      Cell(Some(TtlString(record.ttl)), None),
      Cell(None, Some(Anchor(Some(editPath + "/" + IdString(record.id)), None)))
    ])
  }

  /** A row whose cells read as the fields of a record parses to exactly
      that record. */
  lemma RecordOfRowReads(row: Row, record: DnsRecord<HasId>)
    requires CellText(row, 1) == Some(record.hostName)
    requires CellText(row, 2).Some? && ParseRecordType(CellText(row, 2).value) == Some(record.recordType)
    requires CellText(row, 3) == Some(record.target)
    requires CellText(row, 4).Some? && ParseU32(CellText(row, 4).value) == Some(record.ttl as u32)
    requires CellLink(row, 5).Some? && CellLink(row, 5).value.href.Some?
    requires ParseU32(LastSegment(CellLink(row, 5).value.href.value)) == Some(record.id.id)
    ensures RecordOfRow(row) == Ok(record)
  {
    assert TtlTryNew(record.ttl as u32) == Some(record.ttl);
  }

  /** Reading back the row shown for a record gives that record. */
  lemma RowRoundTrip(record: DnsRecord<HasId>, editPath: string)
    ensures RecordOfRow(RecordRow(record, editPath)) == Ok(record)
  {
    var row := RecordRow(record, editPath);
    var idText := IdString(record.id);
    assert CellText(row, 2) == Some(RecordTypeName(record.recordType));
    assert CellText(row, 4) == Some(TtlString(record.ttl));
    assert CellLink(row, 5) == Some(Anchor(Some(editPath + "/" + idText), None));
    LastSegmentAfterSlash(editPath, idText);
    IdStringReadsBack(record.id);
    TtlStringReadsBack(record.ttl);
    RecordTypeRoundTrip(record.recordType);
    RecordOfRowReads(row, record);
  }

  /** `get_dns_records`: `page` is what fetching the zone's record page gave,
      the rows of its record grid or the transport error, which is passed on.
      The rows are walked in document order, one record per row; the first
      malformed row aborts the call. */
  method GetDnsRecords(handle: Auth.RackhostClient, zone: Zone.DnsZone, page: Result<seq<Row>>)
    returns (r: Result<seq<DnsRecord<HasId>>>)
    requires handle.state == Auth.Authed
    ensures page.Err? ==> r == Err(page.error)
    ensures page.Ok? ==> r == Traverse(RecordOfRow, page.value)
    ensures r.Ok? ==> page.Ok? && |r.value| == |page.value|
    ensures r.Ok? ==> forall i :: 0 <= i < |page.value| ==> RecordOfRow(page.value[i]) == Ok(r.value[i])
    ensures page.Ok? && r.Err? ==> r.error.Panic?
  {
    if page.Err? {
      return Err(page.error);
    }
    var rows := page.value;
    var dnsRecords: seq<DnsRecord<HasId>> := [];
    for i := 0 to |rows|
      invariant Traverse(RecordOfRow, rows[..i]) == Ok(dnsRecords)
    {
      var record := RecordOfRow(rows[i]);
      if record.Err? {
        TraverseFirstError(RecordOfRow, rows, i);
        return Err(record.error);
      }
      TraverseStep(RecordOfRow, rows, i, dnsRecords);
      dnsRecords := dnsRecords + [record.value];
    }
    assert rows[..|rows|] == rows;
    r := Ok(dnsRecords);
    assert r == Traverse(RecordOfRow, rows);
  }

  // ---------------------------------------------------------------------------
  // Submitting a record

  /** The create endpoint; the zone goes in the query. */
  function CreateUrl(zone: Zone.DnsZone): (r: Url)
    ensures r.path == "/dnsRecord/createOther"
    ensures r.query.Some? && |r.query.value| >= 10 && r.query.value[10..] == zone.id
  {
    Url("/dnsRecord/createOther", Some("dnsZoneId=" + zone.id))
  }

  /** The update endpoint's path up to the record id. */
  const UpdatePrefix: string := "/dnsRecord/updateOther"

  /** The update endpoint; the record id is the last path segment. */
  function UpdateUrl(id: HasId): (r: Url)
    ensures LastSegment(r.path) == IdString(id)
    ensures r.query == None
  {
    var digits := IdString(id);
    assert forall i :: 0 <= i < |digits| ==> digits[i] != '/';
    LastSegmentAfterSlash(UpdatePrefix, digits);
    Url(UpdatePrefix + "/" + digits, None)
  }

  /** The update URL names the record: its last path segment reads back as
      the id. It is never the create URL, which carries the zone in a query. */
  lemma UpdateUrlNamesRecord(id: HasId, zone: Zone.DnsZone)
    ensures ParseU32(LastSegment(UpdateUrl(id).path)) == Some(id.id)
    ensures UpdateUrl(id) != CreateUrl(zone)
  {
    IdStringReadsBack(id);
  }

  /** The form of a create or update: token, leading label of the host
      name, type, target, TTL. */
  function RecordForm(csrf: string, record: DnsRecord<NoId>): (form: seq<FormField>)
    ensures |form| == 5 && form[0] == ("rackhost-csrf", csrf)
    ensures form[3] == ("DnsRecordForm[target]", record.target)
  {
    [
      ("rackhost-csrf", csrf),
      ("DnsRecordForm[name]", FirstLabel(record.hostName)),
      ("DnsRecordForm[type]", RecordTypeName(record.recordType)),
      ("DnsRecordForm[target]", record.target),
      ("DnsRecordForm[ttl]", TtlString(record.ttl))
    ]
  }

  /** The form holds five fields in a fixed order, and each reads back as
      the part of the record it carries: the name field is the host name up
      to its first '.', the whole host name when it has none. */
  lemma RecordFormFields(csrf: string, record: DnsRecord<NoId>)
    ensures var form := RecordForm(csrf, record);
      && |form| == 5
      && form[0] == ("rackhost-csrf", csrf)
      && form[1].0 == "DnsRecordForm[name]" && form[2].0 == "DnsRecordForm[type]"
      && form[3].0 == "DnsRecordForm[target]" && form[4].0 == "DnsRecordForm[ttl]"
      && '.' !in form[1].1 && form[1].1 <= record.hostName
      && (|form[1].1| < |record.hostName| ==> record.hostName[|form[1].1|] == '.')
      && ('.' !in record.hostName ==> form[1].1 == record.hostName)
      && ParseRecordType(form[2].1) == Some(record.recordType)
      && form[3].1 == record.target
      && ParseU32(form[4].1) == Some(record.ttl as u32)
  {
    var form := RecordForm(csrf, record);
    assert form[1].1 == FirstLabel(record.hostName);
    assert form[2].1 == RecordTypeName(record.recordType);
    assert form[4].1 == Decimal(record.ttl as nat);
    RecordTypeRoundTrip(record.recordType);
    ParseDecimal(record.ttl);
  }

  /** The header that marks a submission as an XMLHttpRequest, so the console
      answers with JSON rather than a page. */
  const AjaxHeaders: seq<Header> := [("X-Requested-With", "XMLHttpRequest")]

  /** The JSON body of a submission's answer: not JSON at all, or an object
      whose `message` string (an HTML fragment) may be missing. */
  datatype JsonBody = NotJson | Json(message: Option<seq<Element>>)

  /** The fragment holds a `div.alert-success`. */
  predicate HasSuccessMarker(fragment: seq<Element>) {
    exists e :: e in fragment && e.tag == "div" && "alert-success" in e.classes
  }

  /** `create_or_update_dns_record`: fetches a token, posts the record's form
      to `url`, and reads the success marker out of the answer's message.
      The HTTP status is not consulted. */
  function SubmitRecord(url: Url, record: DnsRecord<NoId>, csrf: Result<string>,
                        response: Result<JsonBody>): (x: Exchange<()>)
    ensures csrf.Err? ==> x.sent == None && x.result == Err(csrf.error)
    ensures csrf.Ok? ==> x.sent == Some(Post(url, AjaxHeaders, RecordForm(csrf.value, record)))
    ensures x.result.Ok? <==>
      csrf.Ok? && response.Ok? && response.value.Json? && response.value.message.Some?
      && HasSuccessMarker(response.value.message.value)
    ensures csrf.Ok? && response.Err? ==> x.result == Err(response.error)
    ensures csrf.Ok? && response == Ok(NotJson) ==> x.result == Err(MalformedJson)
    ensures csrf.Ok? && response == Ok(Json(None)) ==> x.result == Err(Panic("No message found"))
    ensures (csrf.Ok? && response.Ok? && response.value.Json? && response.value.message.Some?
             && !HasSuccessMarker(response.value.message.value)) ==> x.result == Err(Failure("Failed to update record"))
  {
    match csrf
    case Err(e) => Exchange(None, Err(e))
    case Ok(token) =>
      var sent := Some(Post(url, AjaxHeaders, RecordForm(token, record)));
      match response
      case Err(e) => Exchange(sent, Err(e))
      case Ok(NotJson) => Exchange(sent, Err(MalformedJson))
      case Ok(Json(None)) => Exchange(sent, Err(Panic("No message found")))
      case Ok(Json(Some(fragment))) =>
        if HasSuccessMarker(fragment) then Exchange(sent, Ok(()))
        else Exchange(sent, Err(Failure("Failed to update record")))
  }

  /** `create_dns_record`: submits to the create endpoint; any failure of the
      submission panics, so the call never returns an error. */
  function CreateDnsRecord(handle: Auth.RackhostClient, zone: Zone.DnsZone, record: DnsRecord<NoId>,
                           csrf: Result<string>, response: Result<JsonBody>): (x: Exchange<()>)
    requires handle.state == Auth.Authed
    ensures csrf.Err? ==> x.sent == None
    ensures csrf.Ok? ==> x.sent == Some(Post(CreateUrl(zone), AjaxHeaders, RecordForm(csrf.value, record)))
    ensures x.result.Ok? <==> SubmitRecord(CreateUrl(zone), record, csrf, response).result.Ok?
    ensures x.result.Err? ==> x.result.error.Panic?
    ensures var s := SubmitRecord(CreateUrl(zone), record, csrf, response).result;
      s.Err? && !s.error.Panic? ==> x.result == Err(Panic("Failed to create record"))
    ensures var s := SubmitRecord(CreateUrl(zone), record, csrf, response).result;
      s.Err? && s.error.Panic? ==> x.result == s
  {
    var x := SubmitRecord(CreateUrl(zone), record, csrf, response);
    Exchange(x.sent, Expect(x.result, "Failed to create record"))
  }

  /** `update_dns_record`: strips the id and submits to the update endpoint
      of that id; any failure of the submission panics. */
  function UpdateDnsRecord(handle: Auth.RackhostClient, record: DnsRecord<HasId>,
                           csrf: Result<string>, response: Result<JsonBody>): (x: Exchange<()>)
    requires handle.state == Auth.Authed
    ensures csrf.Err? ==> x.sent == None
    ensures csrf.Ok? ==> x.sent == Some(Post(UpdateUrl(record.id), AjaxHeaders, RecordForm(csrf.value, StripId(record))))
    ensures x.result.Ok? <==> SubmitRecord(UpdateUrl(record.id), StripId(record), csrf, response).result.Ok?
    ensures x.result.Err? ==> x.result.error.Panic?
    ensures var s := SubmitRecord(UpdateUrl(record.id), StripId(record), csrf, response).result;
      s.Err? && !s.error.Panic? ==> x.result == Err(Panic("Failed to update record"))
    ensures var s := SubmitRecord(UpdateUrl(record.id), StripId(record), csrf, response).result;
      s.Err? && s.error.Panic? ==> x.result == s
  {
    var x := SubmitRecord(UpdateUrl(record.id), StripId(record), csrf, response);
    Exchange(x.sent, Expect(x.result, "Failed to update record"))
  }

  /** Updating a record sends the very form that creating its id-less copy
      sends, and succeeds on the same answers; only the URL differs. */
  lemma UpdateSendsCreateForm(handle: Auth.RackhostClient, zone: Zone.DnsZone, record: DnsRecord<HasId>,
                              csrf: Result<string>, response: Result<JsonBody>)
    requires handle.state == Auth.Authed
    ensures var u := UpdateDnsRecord(handle, record, csrf, response);
      var c := CreateDnsRecord(handle, zone, StripId(record), csrf, response);
      && (u.sent.Some? <==> c.sent.Some?)
      && (u.sent.Some? ==> u.sent.value.form == c.sent.value.form && u.sent.value.url != c.sent.value.url)
      && (u.result.Ok? <==> c.result.Ok?)
  {
    UpdateUrlNamesRecord(record.id, zone);
  }
}

=== FILE: text.dfy ===
/** The string handling the client relies on: splitting on '/' and '.',
    printing an unsigned integer and parsing one back. */
module Text {
  import opened Wrappers

  /** Rust's `u32`. */
  newtype u32 = x: int | 0 <= x < 0x1_0000_0000

  /** What `s.split('/').last()` yields: the text after the last '/', or all
      of `s` when it has none. `split` always yields a last piece. */
  function LastSegment(s: string): (r: string)
    ensures '/' !in r
    ensures |r| <= |s| && r == s[|s| - |r|..]
    ensures |r| < |s| ==> s[|s| - |r| - 1] == '/'
    ensures '/' !in s ==> r == s
    decreases |s|
  {
    if s == [] || s[|s| - 1] == '/' then []
    else LastSegment(s[..|s| - 1]) + [s[|s| - 1]]
  }

  /** A path that ends in "/" followed by a segment without '/' yields that segment. */
  lemma {:induction false} LastSegmentAfterSlash(prefix: string, seg: string)
    requires '/' !in seg
    ensures LastSegment(prefix + "/" + seg) == seg
    decreases |seg|
  {
    var s := prefix + "/" + seg;
    if seg != [] {
      var init := seg[..|seg| - 1];
      assert s[..|s| - 1] == prefix + "/" + init;
      assert s[|s| - 1] == seg[|seg| - 1];
      LastSegmentAfterSlash(prefix, init);
      assert seg == init + [seg[|seg| - 1]];
    }
  }

  /** What `s.split('.').next()` yields: the text before the first '.', or
      all of `s` when it has none. `split` always yields a first piece. */
  function FirstLabel(s: string): (r: string)
    ensures '.' !in r
    ensures r <= s
    ensures |r| < |s| ==> s[|r|] == '.'
    ensures '.' !in s ==> r == s
    decreases |s|
  {
    if s == [] || s[0] == '.' then []
    else [s[0]] + FirstLabel(s[1..])
  }

  predicate IsDigit(c: char) {
    '0' <= c <= '9'
  }

  predicate AllDigits(s: string) {
    forall i :: 0 <= i < |s| ==> IsDigit(s[i])
  }

  function DigitValue(c: char): nat
    requires IsDigit(c)
  {
    c as int - '0' as int
  }

  function DigitChar(d: nat): (c: char)
    requires d < 10
    ensures IsDigit(c) && DigitValue(c) == d
  {
    ('0' as int + d) as char
  }

  /** The number a string of decimal digits denotes. */
  function DigitsValue(s: string): nat
    requires AllDigits(s)
    decreases |s|
  {
    if s == [] then 0
    else DigitsValue(s[..|s| - 1]) * 10 + DigitValue(s[|s| - 1])
  }

  /** `Display` of an unsigned integer: decimal digits, no sign, no leading zero. */
  function Decimal(n: nat): (r: string)
    ensures |r| >= 1 && AllDigits(r)
    ensures r[0] == '0' ==> r == "0"
    decreases n
  {
    if n < 10 then [DigitChar(n)]
    else Decimal(n / 10) + [DigitChar(n % 10)]
  }

  /** `str::parse::<u32>`: an optional '+', then one or more decimal digits
      whose value is below 2^32. Anything else is an error. */
  function ParseU32(s: string): Option<u32>
  {
    var digits := if |s| > 0 && s[0] == '+' then s[1..] else s;
    if digits != [] && AllDigits(digits) && DigitsValue(digits) < 0x1_0000_0000
    then Some(DigitsValue(digits) as u32)
    else None
  }

  lemma {:induction false} DecimalValue(n: nat)
    ensures DigitsValue(Decimal(n)) == n
    decreases n
  {
    if n >= 10 {
      var s := Decimal(n);
      assert s[..|s| - 1] == Decimal(n / 10);
      DecimalValue(n / 10);
    }
  }

  /** Printing a `u32` and parsing the text back gives the same number. */
  lemma ParseDecimal(n: u32)
    ensures ParseU32(Decimal(n as nat)) == Some(n)
  {
    DecimalValue(n as nat);
  }
}

=== FILE: wrappers.dfy ===
/** Option and Result, the ways a client call can end without a value, and
    the all-or-nothing traversal every extraction loop of the client follows. */
module Wrappers {

  datatype Option<+T> = None | Some(value: T)

  /** Why a call did not produce its value. */
  datatype Error =
    | Failure(msg: string)  // an `anyhow` error raised with `bail!` or `ok_or`
    | Panic(msg: string)    // an `expect`, `unwrap`, `assert_eq!` or `unreachable!` that fires
    | Transport             // the HTTP transport failed; propagated with `?`
    | MalformedJson         // a response body that is not JSON; propagated with `?`

  datatype Result<+T> = Ok(value: T) | Err(error: Error)

  /** `Result::expect`: an error panics with the given message. A panic that
      already happened inside the call is the one that ends the program. */
  function Expect<T>(r: Result<T>, msg: string): Result<T>
  {
    match r
    case Ok(v) => Ok(v)
    case Err(Panic(m)) => Err(Panic(m))
    case Err(_) => Err(Panic(msg))
  }

  /** Applies `f` to the elements of `xs` in order and stops at the first
      error: the result holds one value per element, in order, or the error
      of the first element that fails. */
  function Traverse<A, B>(f: A -> Result<B>, xs: seq<A>): (r: Result<seq<B>>)
    ensures r.Ok? <==> forall i :: 0 <= i < |xs| ==> f(xs[i]).Ok?
    ensures r.Ok? ==> |r.value| == |xs| && forall i :: 0 <= i < |xs| ==> f(xs[i]) == Ok(r.value[i])
    ensures r.Err? ==>
      exists i :: 0 <= i < |xs| && f(xs[i]) == Err(r.error) && forall j :: 0 <= j < i ==> f(xs[j]).Ok?
    decreases |xs|
  {
    if xs == [] then Ok([])
    else
      var init := xs[..|xs| - 1];
      assert forall i :: 0 <= i < |init| ==> init[i] == xs[i];
      match Traverse(f, init)
      case Err(e) => Err(e)
      case Ok(ys) =>
        match f(xs[|xs| - 1])
        case Err(e) => Err(e)
        case Ok(y) => Ok(ys + [y])
  }

  /** One more element: the loop step of every extraction loop. */
  lemma TraverseStep<A, B>(f: A -> Result<B>, xs: seq<A>, i: nat, ys: seq<B>)
    requires i < |xs| && Traverse(f, xs[..i]) == Ok(ys) && f(xs[i]).Ok?
    ensures Traverse(f, xs[..i + 1]) == Ok(ys + [f(xs[i]).value])
  {
    assert xs[..i + 1][..i] == xs[..i];
  }

  /** The first failing element decides the error of the whole traversal. */
  lemma TraverseFirstError<A, B>(f: A -> Result<B>, xs: seq<A>, i: nat)
    requires i < |xs| && Traverse(f, xs[..i]).Ok? && f(xs[i]).Err?
    ensures Traverse(f, xs) == Err(f(xs[i]).error)
  {
    var r := Traverse(f, xs);
    assert forall j :: 0 <= j < i ==> f(xs[j]).Ok? by {
      forall j | 0 <= j < i ensures f(xs[j]).Ok? {
        assert xs[..i][j] == xs[j];
      }
    }
    var k :| 0 <= k < |xs| && f(xs[k]) == Err(r.error) && forall j :: 0 <= j < k ==> f(xs[j]).Ok?;
    assert k == i;
  }
}

=== FILE: zone.dfy ===
/** The zone listing: one zone per link of the zone grid. */
module Zone {
  import opened Wrappers
  import opened Text
  import opened Html
  import Auth

  /** A DNS zone of the account: its remote id and its name. */
  datatype DnsZone = DnsZone(id: string, name: string)

  /** The zone a link of the zone grid stands for: the id is what follows
      the last '/' of the link target, the name is the link text. A link
      without a target or without text aborts the listing. */
  function ZoneOfAnchor(a: Anchor): (r: Result<DnsZone>)
    ensures r.Ok? <==> a.href.Some? && a.firstText.Some?
    ensures r.Ok? ==> r.value == DnsZone(LastSegment(a.href.value), a.firstText.value)
    ensures a.href.None? ==> r == Err(Panic("No href found"))
    ensures a.href.Some? && a.firstText.None? ==> r == Err(Panic("No name found"))
  {
    match a.href
    case None => Err(Panic("No href found"))
    case Some(url) =>
      var id := LastSegment(url);
      match a.firstText
      case None => Err(Panic("No name found"))
      case Some(name) => Ok(DnsZone(id, name))
  }

  /** The id of a listed zone never holds a '/'; it is the whole link target
      when that has no '/', it is empty when the target ends in '/', and
      otherwise the target is some path, a '/', and the id. */
  lemma ZoneIdShape(a: Anchor)
    requires ZoneOfAnchor(a).Ok?
    ensures var href, id := a.href.value, ZoneOfAnchor(a).value.id;
      && '/' !in id
      && ('/' !in href ==> id == href)
      && (|href| > 0 && href[|href| - 1] == '/' ==> id == "")
      && (id != href ==> href == href[..|href| - |id| - 1] + "/" + id)
  {
    var href, id := a.href.value, ZoneOfAnchor(a).value.id;
    if id != href {
      assert href == href[..|href| - |id| - 1] + [href[|href| - |id| - 1]] + href[|href| - |id|..];
    }
  }

  /** The listing of a link sequence succeeds exactly when every link has an
      `href` and a text, and then holds the zone of each link, in order. */
  lemma ZonesOfAnchors(anchors: seq<Anchor>)
    ensures var t := Traverse(ZoneOfAnchor, anchors);
      && (t.Ok? <==> forall i :: 0 <= i < |anchors| ==> anchors[i].href.Some? && anchors[i].firstText.Some?)
      && (t.Ok? ==> |t.value| == |anchors|)
      && (t.Ok? ==> forall i :: 0 <= i < |anchors| ==>
            t.value[i] == DnsZone(LastSegment(anchors[i].href.value), anchors[i].firstText.value))
  {
    var t := Traverse(ZoneOfAnchor, anchors);
    if t.Ok? {
      forall i | 0 <= i < |anchors|
        ensures t.value[i] == DnsZone(LastSegment(anchors[i].href.value), anchors[i].firstText.value)
      {
        assert ZoneOfAnchor(anchors[i]) == Ok(t.value[i]);
      }
    } else {
      var i :| 0 <= i < |anchors| && ZoneOfAnchor(anchors[i]).Err?;
      assert !(anchors[i].href.Some? && anchors[i].firstText.Some?);
    }
  }

  /** `get_dns_zones`: `page` is what fetching the zone page gave, the links
      of its zone grid or the transport error, which is passed on. The links
      are walked in document order, one zone per link; the first malformed
      link aborts the call. */
  method GetDnsZones(handle: Auth.RackhostClient, page: Result<seq<Anchor>>) returns (r: Result<seq<DnsZone>>)
    requires handle.state == Auth.Authed
    ensures page.Err? ==> r == Err(page.error)
    ensures page.Ok? ==> r == Traverse(ZoneOfAnchor, page.value)
    ensures r.Ok? <==> (page.Ok? &&
      forall i :: 0 <= i < |page.value| ==> page.value[i].href.Some? && page.value[i].firstText.Some?)
    ensures r.Ok? ==> |r.value| == |page.value|
    ensures r.Ok? ==> forall i :: 0 <= i < |page.value| ==>
      r.value[i] == DnsZone(LastSegment(page.value[i].href.value), page.value[i].firstText.value)
  {
    if page.Err? {
      return Err(page.error);
    }
    var anchors := page.value;
    var dnsZones: seq<DnsZone> := [];
    for i := 0 to |anchors|
      invariant Traverse(ZoneOfAnchor, anchors[..i]) == Ok(dnsZones)
    {
      var zone := ZoneOfAnchor(anchors[i]);
      if zone.Err? {
        TraverseFirstError(ZoneOfAnchor, anchors, i);
        ZonesOfAnchors(anchors);
        return Err(zone.error);
      }
      TraverseStep(ZoneOfAnchor, anchors, i, dnsZones);
      dnsZones := dnsZones + [zone.value];
    }
    assert anchors[..|anchors|] == anchors;
    r := Ok(dnsZones);
    assert r == Traverse(ZoneOfAnchor, anchors);
    ZonesOfAnchors(anchors);
  }
}
